=== FILE: README.md ===
# Presentational widgets of custom-react-project, modelled in Dafny

This project models the logic inside five React widgets of the
custom-react-project library. Each widget is a pure function from props to an
abstract view, or a small state machine over events:

- `Table` renders an array of records as a table. Its columns are the keys of
  the first record. All header cells share one class, and all body cells
  share another.
- `AdvancedTable` renders the same table. Each header cell and each body cell
  also gets a class from an optional style hook, joined in a template literal.
- `Bars` turns a signed width into a CSS width (its magnitude) and a
  sign-dependent colour scheme.
- `StarRating` shows five levels. The levels follow an internal hover value or
  the caller's committed rating, and a click reports a level to the caller.
- `Modal` renders nothing while closed. While open, an effect focuses the dialog
  and registers a window keydown listener, and Escape or the Close button calls
  `onClose`.

JSX output is represented by datatypes (`TableView.View`, `Bars.Bar`,
`Modal.Dialog`, the five-element `seq<bool>` of `StarRating.View`). DOM focus
and window event dispatch become fields of `Modal.Instance`.

Files:

- `wrappers.dfy` holds `Option`, which stands for props a caller may leave out.
- `js_values.dfy` holds JavaScript values and how they become text, either in a
  template literal or as a React child. It also prints integers in decimal and
  parses them back.
- `records.dfy` holds records as ordered (key, value) lists, with `Object.keys`
  and `row[col]`.
- `table_view.dfy` holds the rendered table datatypes shared by both tables.
- `table.dfy`, `advanced_table.dfy`, `bars.dfy`, `star_rating.dfy` and
  `modal.dfy` each model one widget.

Behaviour of the code worth knowing:

- Without a style hook, `AdvancedTable` (AdvancedTable.js:75-77, 90-92)
  appends a space and the word `undefined` to the class, and so does a hook
  that returns `undefined`.
- `StarRating` (StarRating.js:33-34) does not keep hover within 0..5. On mouse leave it copies
  whatever `rating` the caller passed. `StarRating.RunStaysInRange` shows that
  hover stays in range when every rating the caller passes is in 0..5.
- `Bars` (Bars.js:27) does not take the magnitude of a string width. A string that does not
  convert to a number (the default `'100%'`, or `'-75%'` from the component's
  own usage example) fails both `< 0` and `> 0`. It therefore keeps its text
  and gets a `%` appended (so `'100%'` renders as `100%%`), and it is always
  white on red.
- The `Modal` listener (Modal.js:43-58) calls the `onClose` captured by the effect that
  registered it. Between a render that changes `onClose` and the next effect,
  Escape reaches the previous `onClose`. The invariant about listeners is
  therefore stated for states where the effect has settled.

## Model

| member | source | states |
|---|---|---|
| `JsValues.TemplateText` | src/components/AdvancedTable/AdvancedTable.js:75-77 | a template literal prints an absent value as the word "undefined", null as "null", booleans as "true"/"false", a string as itself, and a number as canonical decimal text (no leading zero, no "-0") that parses back to that number |
| `JsValues.ChildText` | src/components/Table/Table.js:53 | a cell value shown as a React child renders nothing for undefined, null and booleans, a string as itself, and numbers as canonical decimal text (no leading zero, no "-0") that parses back to the number |
| `JsValues.OrEmpty` | src/components/Table/Table.js:42 | the or-empty idiom on an optional class name is the name when given and the empty string otherwise |
| `JsValues.IntText` | src/components/Bars/Bars.js:32 | the decimal text of an integer is canonical (no leading zero, no "-0") and starts with a minus sign iff the integer is negative |
| `JsValues.IntTextRoundTrip` | src/components/Bars/Bars.js:32 | printing an integer in decimal and parsing it back yields the same integer |
| `Records.Keys` | src/components/Table/Table.js:35 | the column list has one name per field of the record, in enumeration order |
| `Records.Get` | src/components/Table/Table.js:53 | `row[col]` is undefined when the record has no own field named col |
| `Records.GetAt` | src/components/AdvancedTable/AdvancedTable.js:94 | with distinct keys, looking up the i-th key of a record yields the i-th value |
| `Table.Render` | src/components/Table/Table.js:30-61 | the placeholder (with test id "no-data") is rendered iff data is absent or empty. Otherwise the table class is "table " plus the class name, the header texts equal the first record's keys, and every header and body cell carries the uniform class. There is one row per record, each with one cell per column, and cell (j,k) is data[j][columns[k]] |
| `Table.ContentsOfRender` | src/components/Table/Table.js:35-57 | ignoring classes, a table with data shows the first record's keys and the matrix of values data[j][columns[k]] |
| `Table.RenderReadBack` | src/components/Table/Table.js:35-57 | when all records share the first record's distinct keys, pairing each body row with the header texts gives back exactly the input records, in order |
| `Table.ExampleCellTexts` | src/components/Table/Table.js:49-57 | in the documented example the body cells display the texts "1", "John", "30" and "2", "Alice", "25", with numbers printed in decimal |
| `Table.ExampleTwoRecords` | src/components/Table/Table.js:16-19 | the documented two-record example renders headers id, name, age and the rows (1, John, 30) and (2, Alice, 25) |
| `AdvancedTable.HeaderHook` | src/components/AdvancedTable/AdvancedTable.js:76 | `renderHeader && renderHeader(col)` is undefined without a hook and is the hook's result for the column otherwise |
| `AdvancedTable.CellHook` | src/components/AdvancedTable/AdvancedTable.js:91 | `renderCell && renderCell(col, row[col])` is undefined without a hook and is the hook's result for the column and the cell value otherwise |
| `AdvancedTable.Render` | src/components/AdvancedTable/AdvancedTable.js:54-102 | the placeholder (no test id) is rendered iff data is absent or empty. Otherwise the table class is "table " plus the class name and the headers are the first record's keys. Header i's class is the th class, a space and the printed header-hook result for that column. There is one row per record of one cell per column. Cell (j,k) holds data[j][columns[k]], and its class is the td class, a space and the printed cell-hook result for that column and value |
| `AdvancedTable.SameContentsAsTable` | src/components/AdvancedTable/AdvancedTable.js:66-98 | ignoring class strings and the placeholder's test id (Table's "no-data" against none), AdvancedTable shows exactly what Table shows for the same data |
| `AdvancedTable.MissingHooksAppendUndefined` | src/components/AdvancedTable/AdvancedTable.js:75-92 | without hooks every header class is the th class followed by " undefined", and every body class is the td class followed by " undefined" |
| `AdvancedTable.HeaderHookClass` | src/components/AdvancedTable/AdvancedTable.js:75-77 | a header hook that returns a class name for a column puts exactly that name after the base class and one space |
| `Bars.Magnitude` | src/components/Bars/Bars.js:26-27 | a numeric width becomes non-negative and equal to the value or its negation, a non-negative one is unchanged, and a string passes through |
| `Bars.Render` | src/components/Bars/Bars.js:25-44 | the CSS width is the magnitude's text plus "%". The colours are black on lightblue when the width is positive and white on red otherwise. Absent width and font size default to '100%' and '13px', and the font size goes on the inner span |
| `Bars.NumericWidthIsAbsolute` | src/components/Bars/Bars.js:26-32 | the rendered CSS width of a numeric value v parses back to the absolute value of v |
| `Bars.WidthIgnoresSign` | src/components/Bars/Bars.js:26-27 | v and -v render the same CSS width |
| `Bars.ColourSchemeBySign` | src/components/Bars/Bars.js:35-36 | black on lightblue iff v > 0, and white on red iff v <= 0 (zero included) |
| `Bars.TextWidthPassesThrough` | src/components/Bars/Bars.js:27-36 | a non-empty string width that is not a decimal integer renders as itself plus "%" and is white on red |
| `Bars.Defaults` | src/components/Bars/Bars.js:25-41 | with no props the width renders as "100%%", white on red, with font size 13px on the span |
| `StarRating.Mount` | src/components/StarRatings/StarRating.js:19 | a freshly mounted widget has hover 0 and the caller's rating |
| `StarRating.View` | src/components/StarRatings/StarRating.js:23-31 | exactly five levels are rendered, and level i+1 is on iff i+1 <= (hover if non-zero, else rating) |
| `StarRating.ViewIsPrefix` | src/components/StarRatings/StarRating.js:31 | the on levels always form a prefix 1..m |
| `StarRating.Step` | src/components/StarRatings/StarRating.js:32-34 | a click reports its level to setRating once and changes nothing. Enter sets hover to the level, and leave sets hover to the current rating. A re-render changes only the rating, and no other event calls setRating |
| `StarRating.InitialViewShowsRating` | src/components/StarRatings/StarRating.js:19-31 | before any mouse event the display shows the first `rating` levels on |
| `StarRating.DefaultAllOff` | src/components/StarRatings/StarRating.js:49-52 | with the default rating 0 and no hover all five levels are off |
| `StarRating.EnterShowsLevel` | src/components/StarRatings/StarRating.js:33 | after entering level i in 1..5 the first i levels are on and the rest off, whatever the rating |
| `StarRating.LeaveRestoresRating` | src/components/StarRatings/StarRating.js:34 | after leave the display equals the display with no hover at all |
| `StarRating.RunCallsMatchClicks` | src/components/StarRatings/StarRating.js:32 | over any event sequence, setRating receives exactly the clicked levels, in order |
| `StarRating.RunStaysInRange` | src/components/StarRatings/StarRating.js:33-34 | with mouse events on levels 1..5 and ratings in 0..5, hover and rating stay in 0..5 |
| `StarRating.ClicksKeepDisplay` | src/components/StarRatings/StarRating.js:32 | clicks alone never change the widget's state |
| `Modal.WithDefaults` | src/components/Modal/Modal.js:88-93 | an absent isOpen means closed, and an absent onClose means the no-op |
| `Modal.View` | src/components/Modal/Modal.js:60-79 | the render output is null iff the modal is closed, and the dialog carries the caller's two style props |
| `Modal.Step` | src/components/Modal/Modal.js:43-72 | a render commits the caller's props without touching listeners. A later render keeps the effect bookkeeping and drops focus only when closing. After a settled state, a render makes the effect pending exactly when isOpen or onClose changed, the effect's dependency list. A pending effect runs the previous cleanup and then, when open, focuses the dialog and adds exactly one fresh listener for the current onClose. A settled effect does nothing, and unmounting runs the cleanup. A key press appends what the registered listeners call. The Close button appends the current onClose iff the modal is mounted and open, and only a render changes the props |
| `Modal.RunCleanup` | src/components/Modal/Modal.js:54-56 | the cleanup removes exactly the listener its effect added, keeps every other listener, and changes nothing else |
| `Modal.KeyCalls` | src/components/Modal/Modal.js:43-47 | Escape makes every registered listener call its onClose once, and any other key calls nothing |
| `Modal.RemoveListener` | src/components/Modal/Modal.js:55 | removing a listener drops exactly that listener and keeps the others |
| `Modal.InitialValid` | src/components/Modal/Modal.js:41-58 | before the first render the listener invariant holds |
| `Modal.StepValid` | src/components/Modal/Modal.js:49-58 | every event preserves the invariant: at most one listener, the one the pending cleanup removes, present iff the last effect ran open, and carrying that effect's onClose |
| `Modal.RunValid` | src/components/Modal/Modal.js:49-58 | every event sequence preserves that invariant |
| `Modal.SettledListeners` | src/components/Modal/Modal.js:49-58 | once effects settle there is exactly one listener iff the modal is open, and it calls the current onClose. An unmounted modal has none |
| `Modal.ReachableListeners` | src/components/Modal/Modal.js:49-58 | in every reachable state there is at most one listener. After effects settle there is exactly one iff open, and there is none after unmount |
| `Modal.EffectWhenOpen` | src/components/Modal/Modal.js:50-53 | the effect run while open focuses the dialog and leaves exactly one listener, for the current onClose |
| `Modal.ChangedOnCloseReRegisters` | src/components/Modal/Modal.js:49-58 | re-rendering a settled open modal with a different onClose re-runs the effect: the old listener is removed and exactly one fresh listener for the new onClose replaces it, with no onClose called |
| `Modal.SameDepsKeepState` | src/components/Modal/Modal.js:49-58 | re-rendering a settled modal with the same isOpen and onClose does not re-run the effect, and the state, listener included, stays as it was |
| `Modal.EffectWhenClosed` | src/components/Modal/Modal.js:54-57 | the effect run while closed leaves no listener |
| `Modal.EscapeWhenOpen` | src/components/Modal/Modal.js:43-47 | Escape on a settled open modal calls onClose exactly once |
| `Modal.EscapeWhenClosed` | src/components/Modal/Modal.js:43-60 | Escape on a settled closed modal or an unmounted one changes nothing |
| `Modal.OtherKeysIgnored` | src/components/Modal/Modal.js:44 | a key other than Escape changes nothing |
| `Modal.CloseButtonCallsOnClose` | src/components/Modal/Modal.js:72 | clicking Close on an open modal calls the current onClose once |
| `Modal.OnlyRenderChangesProps` | src/components/Modal/Modal.js:40-80 | no event but a caller's render changes isOpen or onClose |
| `Modal.LifecycleNeverCalls` | src/components/Modal/Modal.js:49-58 | render, effect and unmount never call onClose |
| `Modal.OpenCloseCycle` | src/components/Modal/Modal.js:49-58 | opening registers one listener and focuses the dialog, and closing again removes that listener |

## Left out

- `Header` and `SideBar` are left out. They pass a message and attributes through, or toggle one class name, and hold no logic to state.
- The webpack build configuration is left out, because it is bundler I/O.
- React `key` props, `PropTypes` runtime warnings and the CSS-module `styles.*` class tokens are left out. The Modal and StarRating class names are opaque, and the on/off state is a boolean.
- Widget children are not modelled. In Bars they are an opaque type parameter.
- Modal's declared `width` and `height` defaults are left out, because the component never reads them.
- `Object.keys` enumeration order, including the rule that integer-like keys come first, is not modelled. A record is an explicitly ordered list of fields.
- A `data` prop that is not an array is not modelled. `data` is either absent or a sequence of records.
- Numbers are integers. Fractional widths and NaN are not modelled.
- JsValues.TemplateText: numbers are assumed to be safe integers (magnitude at most 2^53-1). JavaScript numbers are doubles, so larger integers are inexact, and `String(n)` switches to exponent form such as "1e+21" from 10^21 on. `IntText` prints every digit of an unbounded integer, so this conversion and `Bars.NumericWidthIsAbsolute` describe JavaScript only within that range.
- Records.Get: lookup through the prototype chain is not modelled. A name missing from a record reads as undefined, while JavaScript resolves an inherited name such as "toString" to an `Object.prototype` function. React does not render that function, and AdvancedTable.js:91 would pass it to `renderCell`.
- Field values that are objects are not modelled, because `JsValues.Value` has no object case. React throws "Objects are not valid as a React child" for such a value at Table.js:53 and AdvancedTable.js:94.
- A prop passed as an explicit `null` is not modelled, because `Option.None` stands only for an absent (`undefined`) prop. `renderHeader={null}` would append "null" rather than "undefined" at AdvancedTable.js:75-77 and 90-92. `width={null}` would skip the `'100%'` default at Bars.js:25 and render "null%".
- Every element of `data` is assumed to be an object. A `null` element makes `Object.keys(data[0])` (Table.js:35, AdvancedTable.js:66) or `row[col]` (Table.js:53, AdvancedTable.js:91, 94) throw a TypeError, and a `Records.Record` cannot express that case.
- Bars.Render: string widths that JavaScript converts to a number (such as "-50", "050", "" or "1e2") are not modelled. `Width.Text` stands only for strings that convert to NaN. `Bars.TextWidthPassesThrough` is stated for non-empty strings that are not decimal integers. That condition approximates "converts to NaN" and does not exclude exponent, hexadecimal, whitespace-padded or "Infinity" forms.
- AdvancedTable.Render: style hooks are total pure functions returning a JavaScript value. Hooks with side effects, or hooks that return objects, are not modelled.
- React's scheduling of the Modal is abstracted to explicit Render, Effect and Unmount events. Discarded renders and concurrent rendering are not modelled. DOM focus is a flag, and window dispatch calls each registered listener in order.

=== FILE: advanced_table.dfy ===
/** The `AdvancedTable` widget: the same table as `Table`, but each header
    cell and each body cell may get an extra class from a caller-supplied
    style hook. The class string is built as a template literal
    `${base || ''} ${hook && hook(...)}`, so a missing hook, or a hook that
    returns undefined, appends the word "undefined". */
module AdvancedTable {
  import opened Wrappers
  import opened JsValues
  import opened Records
  import opened TableView
  import Table

  datatype Props = Props(
    data: Option<seq<Record>>,
    tableClassName: Option<string>,
    thClassName: Option<string>,
    tdClassName: Option<string>,
    renderHeader: Option<string -> Value>,
    renderCell: Option<(string, Value) -> Value>)

  /** `renderHeader && renderHeader(col)`: undefined when there is no hook. */
  function HeaderHook(renderHeader: Option<string -> Value>, col: string): (v: Value)
    ensures renderHeader.None? ==> v == Undefined
    ensures renderHeader.Some? ==> v == renderHeader.value(col)
  {
    match renderHeader
    case None => Undefined
    case Some(f) => f(col)
  }

  /** `renderCell && renderCell(col, row[col])`: undefined when there is no hook. */
  function CellHook(renderCell: Option<(string, Value) -> Value>, col: string, cell: Value): (v: Value)
    ensures renderCell.None? ==> v == Undefined
    ensures renderCell.Some? ==> v == renderCell.value(col, cell)
  {
    match renderCell
    case None => Undefined
    case Some(f) => f(col, cell)
  }

  /** The class string of the header cell for column col. */
  function HeaderClass(p: Props, col: string): string {
    OrEmpty(p.thClassName) + " " + TemplateText(HeaderHook(p.renderHeader, col))
  }

  /** The class string of the body cell for column col of a record. */
  function CellClass(p: Props, col: string, row: Record): string {
    OrEmpty(p.tdClassName) + " " + TemplateText(CellHook(p.renderCell, col, Get(row, col)))
  }

  function Render(p: Props): (v: View)
    ensures v.Placeholder? <==> !Table.HasData(p.data)
    ensures v.Placeholder? ==> v == Placeholder(NoDataText, None)
    ensures v.Grid? ==> v.className == "table " + OrEmpty(p.tableClassName)
    ensures v.Grid? ==> HeaderTexts(v.header) == Keys(p.data.value[0])
    ensures v.Grid? ==> forall i :: 0 <= i < |v.header| ==>
      v.header[i].className == OrEmpty(p.thClassName) + " " + TemplateText(HeaderHook(p.renderHeader, v.header[i].text))
    ensures v.Grid? ==> |v.body| == |p.data.value|
    ensures v.Grid? ==> forall j :: 0 <= j < |v.body| ==> |v.body[j]| == |v.header|
    ensures v.Grid? ==> forall j, k :: 0 <= j < |v.body| && 0 <= k < |v.body[j]| ==>
      var col := v.header[k].text;
      var cell := Get(p.data.value[j], col);
      v.body[j][k] == BodyCell(OrEmpty(p.tdClassName) + " " + TemplateText(CellHook(p.renderCell, col, cell)), cell)
  {
    if !Table.HasData(p.data) then Placeholder(NoDataText, None)
    else
      var rows := p.data.value;
      var columns := Table.Columns(rows);
      Grid("table " + OrEmpty(p.tableClassName),
           seq(|columns|, i requires 0 <= i < |columns| => HeaderCell(HeaderClass(p, columns[i]), columns[i])),
           seq(|rows|, j requires 0 <= j < |rows| =>
             seq(|columns|, k requires 0 <= k < |columns| =>
               BodyCell(CellClass(p, columns[k], rows[j]), Get(rows[j], columns[k])))))
  }

  /** The `Table` props with the same data and class names, hooks dropped. */
  function AsTableProps(p: Props): Table.Props {
    Table.Props(p.data, p.tableClassName, p.thClassName, p.tdClassName)
  }

  /** Ignoring class strings (and the placeholder's test id), AdvancedTable
      shows exactly what Table shows for the same data. */
  lemma SameContentsAsTable(p: Props)
    ensures Contents(Render(p)) == Contents(Table.Render(AsTableProps(p)))
  {
    var a := Render(p);
    var t := Table.Render(AsTableProps(p));
    if a.Grid? {
      var ca := Contents(a).value.1;
      var ct := Contents(t).value.1;
      assert |ca| == |ct|;
      forall j | 0 <= j < |ca|
        ensures ca[j] == ct[j]
      {
        forall k | 0 <= k < |ca[j]|
          ensures ca[j][k] == ct[j][k]
        {
          assert a.header[k].text == t.header[k].text;
        }
      }
      assert ca == ct;
    }
  }

  /** Without a header hook every header class ends in the literal word
      "undefined"; the same holds for body cells without a cell hook. */
  lemma MissingHooksAppendUndefined(p: Props)
    requires p.renderHeader.None? && p.renderCell.None?
    ensures var v := Render(p);
      v.Grid? ==>
        (forall i :: 0 <= i < |v.header| ==> v.header[i].className == OrEmpty(p.thClassName) + " undefined") &&
        (forall j, k :: 0 <= j < |v.body| && 0 <= k < |v.body[j]| ==>
          v.body[j][k].className == OrEmpty(p.tdClassName) + " undefined")
  {
  }

  /** A hook that returns a class name for a column gets exactly that name
      after the base class and one space. */
  lemma HeaderHookClass(p: Props, i: nat, token: string)
    requires Render(p).Grid? && i < |Render(p).header|
    requires p.renderHeader.Some? && p.renderHeader.value(Render(p).header[i].text) == Str(token)
    ensures Render(p).header[i].className == OrEmpty(p.thClassName) + " " + token
  {
  }
}

=== FILE: bars.dfy ===
/** The `Bars` widget: a horizontal bar whose CSS width is the magnitude of a
    signed value and whose colours depend on the value's sign. The width prop
    is either a number or a string; a string here stands for one whose numeric
    conversion is NaN (such as the default '100%'), so it fails both `< 0`
    and `> 0`. */
module Bars {
  import opened Wrappers
  import JsValues

  datatype Width = Num(n: int) | Text(s: string)

  const DefaultWidth := Text("100%")
  const DefaultFontSize := "13px"

  /** The inline style of the outer section. */
  datatype SectionStyle = SectionStyle(
    display: string,
    justifyItem: string,
    width: string,
    margin: string,
    padding: string,
    color: string,
    background: string)

  /** The rendered bar: the section's style and the inner span carrying the
      font size around the children. */
  datatype Bar<C> = Bar(style: SectionStyle, spanFontSize: string, children: C)

  /** `width < 0`: false for a string that does not convert to a number. */
  predicate IsNegative(w: Width) {
    w.Num? && w.n < 0
  }

  /** `width > 0`: false for a string that does not convert to a number. */
  predicate IsPositive(w: Width) {
    w.Num? && w.n > 0
  }

  /** `width < 0 ? opposite(width) : width`. */
  function Magnitude(w: Width): (m: Width)
    ensures w.Num? ==> m.Num? && m.n >= 0 && (m.n == w.n || m.n == -w.n)
    ensures w.Num? && w.n >= 0 ==> m == w
    ensures w.Text? ==> m == w
  {
    if IsNegative(w) then Num(-w.n) else w
  }

  /** `${num}%`: the text of the magnitude followed by a percent sign. */
  function PercentText(m: Width): string {
    match m
    case Num(n) => JsValues.TemplateText(JsValues.Num(n)) + "%"
    case Text(s) => s + "%"
  }

  function Render<C>(width: Option<Width>, fontSize: Option<string>, children: C): (b: Bar<C>)
    ensures b.style.width == PercentText(Magnitude(width.GetOr(DefaultWidth)))
    ensures b.style.color == (if IsPositive(width.GetOr(DefaultWidth)) then "black" else "white")
    ensures b.style.background == (if IsPositive(width.GetOr(DefaultWidth)) then "lightblue" else "red")
    ensures b.spanFontSize == fontSize.GetOr(DefaultFontSize)
    ensures b.children == children
  {
    var w := width.GetOr(DefaultWidth);
    var positive := IsPositive(w);
    Bar(SectionStyle("flex", "center", PercentText(Magnitude(w)), "3px 0", "5px 10px",
                     if positive then "black" else "white",
                     if positive then "lightblue" else "red"),
        fontSize.GetOr(DefaultFontSize),
        children)
  }

  /** Reads the number back out of a rendered CSS width such as "75%". */
  function ParsePercent(css: string): Option<int> {
    if |css| > 0 && css[|css| - 1] == '%' then JsValues.ParseInt(css[..|css| - 1]) else None
  }

  /** A numeric width renders as its absolute value, which is never negative. */
  lemma NumericWidthIsAbsolute<C>(v: int, fontSize: Option<string>, children: C)
    ensures ParsePercent(Render(Some(Num(v)), fontSize, children).style.width) == Some(if v < 0 then -v else v)
  {
    var m := if v < 0 then -v else v;
    var css := JsValues.TemplateText(JsValues.Num(m)) + "%";
    assert css[..|css| - 1] == JsValues.TemplateText(JsValues.Num(m));
  }

  /** The rendered width of v and of -v are the same text. */
  lemma WidthIgnoresSign<C>(v: int, fontSize: Option<string>, children: C)
    ensures Render(Some(Num(v)), fontSize, children).style.width
         == Render(Some(Num(-v)), fontSize, children).style.width
  {
  }

  /** Black on light blue exactly when the numeric width is positive; zero and
      negative widths get white on red. */
  lemma ColourSchemeBySign<C>(v: int, fontSize: Option<string>, children: C)
    ensures var b := Render(Some(Num(v)), fontSize, children);
      (b.style.color == "black" <==> v > 0) && (b.style.background == "lightblue" <==> v > 0) &&
      (b.style.color == "white" <==> v <= 0) && (b.style.background == "red" <==> v <= 0)
  {
  }

  /** A string that converts to NaN: approximated as a non-empty string that
      is not an optionally signed decimal integer. */
  predicate NotDecimal(s: string) {
    s != "" && JsValues.ParseInt(s).None?
  }

  /** A string width that does not convert to a number passes through
      unchanged and, failing `> 0`, gets white on red. */
  lemma TextWidthPassesThrough<C>(s: string, fontSize: Option<string>, children: C)
    requires NotDecimal(s)
    ensures var b := Render(Some(Text(s)), fontSize, children);
      b.style.width == s + "%" && b.style.color == "white" && b.style.background == "red"
  {
  }

  /** With no props: width '100%' renders as "100%%", white on red, 13px text. */
  lemma Defaults<C>(children: C)
    ensures var b := Render(None, None, children);
      b.style.width == "100%%" && b.style.color == "white" && b.style.background == "red" &&
      b.spanFontSize == "13px"
  {
  }
}

=== FILE: js_values.dfy ===
/** JavaScript values as the widgets see them: the contents of a record field,
    the result of a style hook, and how such a value turns into text either in
    a template literal (`${v}`) or as a React child. Numbers are integers here;
    fractional numbers are not modelled. */
module JsValues {
  import opened Wrappers

  datatype Value = Undefined | Null | Bool(b: bool) | Num(n: int) | Str(s: string)

  /** The decimal digit character for d. */
  function Digit(d: nat): (c: char)
    requires d < 10
    ensures '0' <= c <= '9'
  {
    ('0' as int + d) as char
  }

  /** The numeric value of a decimal digit character. */
  function DigitValue(c: char): (d: nat)
    requires '0' <= c <= '9'
    ensures d < 10
  {
    c as int - '0' as int
  }

  predicate IsDigits(s: string) {
    forall i :: 0 <= i < |s| ==> '0' <= s[i] <= '9'
  }

  /** Decimal text of a natural number, as `String(n)` prints it: at least one
      digit and no leading zero unless the number is zero. */
  function NatText(n: nat): (r: string)
    ensures |r| >= 1 && IsDigits(r)
    ensures r[0] == '0' ==> n == 0 && r == "0"
    decreases n
  {
    if n < 10 then [Digit(n)] else NatText(n / 10) + [Digit(n % 10)]
  }

  /** The shape of the text `String(n)` gives for an integer: no leading zero
      (except "0" itself) and no "-0". */
  predicate Canonical(r: string) {
    && |r| >= 1
    && (r[0] == '0' ==> r == "0")
    && (r[0] == '-' ==> |r| >= 2 && r[1] != '0')
  }

  /** Decimal text of an integer: a minus sign before the magnitude when negative. */
  function IntText(n: int): (r: string)
    ensures Canonical(r)
    ensures n < 0 <==> r[0] == '-'
  {
    if n < 0 then
      var t := NatText(-n);
      assert ("-" + t)[1] == t[0];
      "-" + t
    else NatText(n)
  }

  /** Reads a digit string back as a natural number (the inverse of NatText). */
  function ParseDigits(s: string): nat
    requires IsDigits(s)
    decreases |s|
  {
    if |s| == 0 then 0 else 10 * ParseDigits(s[..|s| - 1]) + DigitValue(s[|s| - 1])
  }

  /** Reads an optionally signed decimal integer; None when the text is not one. */
  function ParseInt(s: string): Option<int> {
    if |s| > 0 && s[0] == '-' then
      (if |s| > 1 && IsDigits(s[1..]) then Some(0 - ParseDigits(s[1..]) as int) else None)
    else if |s| > 0 && IsDigits(s) then Some(ParseDigits(s))
    else None
  }

  lemma {:induction false} NatTextRoundTrip(n: nat)
    ensures ParseDigits(NatText(n)) == n
    decreases n
  {
    if n >= 10 {
      var t := NatText(n / 10);
      var r := t + [Digit(n % 10)];
      assert r[..|r| - 1] == t;
      NatTextRoundTrip(n / 10);
    }
  }

  lemma ParseIntOfDigits(t: string)
    requires |t| > 0 && IsDigits(t)
    ensures ParseInt(t) == Some(ParseDigits(t) as int)
    ensures ParseInt("-" + t) == Some(0 - ParseDigits(t) as int)
  {
    assert t[0] != '-';
    var m := "-" + t;
    assert m[0] == '-' && m[1..] == t;
  }

  /** Printing an integer in decimal and reading it back gives the integer. */
  lemma IntTextRoundTrip(n: int)
    ensures ParseInt(IntText(n)) == Some(n)
  {
    var m: nat := if n < 0 then -n else n;
    NatTextRoundTrip(m);
    ParseIntOfDigits(NatText(m));
  }

  /** Template-literal conversion `${v}` (JavaScript's String(v)). An absent
      value prints as the word "undefined", a null as "null". */
  function TemplateText(v: Value): (r: string)
    ensures v.Undefined? ==> r == "undefined"
    ensures v.Null? ==> r == "null"
    ensures v.Bool? ==> r == (if v.b then "true" else "false")
    ensures v.Str? ==> r == v.s
    ensures v.Num? ==> Canonical(r) && ParseInt(r) == Some(v.n)
  {
    match v
    case Undefined => "undefined"
    case Null => "null"
    case Bool(b) => if b then "true" else "false"
    case Num(n) => IntTextRoundTrip(n); IntText(n)
    case Str(s) => s
  }

  /** The text React renders for a value placed as a child: nothing for
      undefined, null and booleans, decimal text for numbers. */
  function ChildText(v: Value): (r: string)
    ensures v.Undefined? || v.Null? || v.Bool? ==> r == ""
    ensures v.Str? ==> r == v.s
    ensures v.Num? ==> Canonical(r) && ParseInt(r) == Some(v.n)
  {
    match v
    case Num(n) => TemplateText(v)
    case Str(s) => s
    case _ => ""
  }

  /** `x || ''` for an optional string prop: the empty string when the prop is
      absent (an empty string is falsy too, and gives the same text). */
  function OrEmpty(x: Option<string>): (r: string)
    ensures x.Some? ==> r == x.value
    ensures x.None? ==> r == ""
  {
    x.GetOr("")
  }
}

=== FILE: modal.dfy ===
/** The `Modal` widget over an abstract React lifecycle. The caller owns
    `isOpen` and `onClose`; the widget renders nothing while closed, and an
    effect keyed on [isOpen, onClose] focuses the dialog and registers a
    window keydown listener while open, whose cleanup removes that listener.
    Escape, seen by a registered listener, and the close button both call
    `onClose`; the widget never changes `isOpen` itself. */
module Modal {
  import opened Wrappers

  /** The identity of an `onClose` function; NoOp is the declared default. */
  datatype Callback = NoOp | Handler(id: nat)

  /** The effect's dependencies are exactly these two props. */
  datatype Props = Props(isOpen: bool, onClose: Callback)

  /** Props as a caller may pass them, possibly leaving some out. */
  datatype RawProps = RawProps(isOpen: Option<bool>, onClose: Option<Callback>)

  /** The declared defaults: closed, and a no-op `onClose`. */
  function WithDefaults(raw: RawProps): (p: Props)
    ensures raw.isOpen.None? ==> !p.isOpen
    ensures raw.onClose.None? ==> p.onClose == NoOp
    ensures raw.isOpen.Some? ==> p.isOpen == raw.isOpen.value
    ensures raw.onClose.Some? ==> p.onClose == raw.onClose.value
  {
    Props(raw.isOpen.GetOr(false), raw.onClose.GetOr(NoOp))
  }

  /** The rendered dialog, with its fixed accessibility attributes and the
      caller's two style props. */
  datatype Dialog = Dialog(ariaModal: string, ariaLabelledBy: string, tabIndex: int,
                           contentStyle: Option<string>, btnStyle: Option<string>)

  /** The render output: null while closed. */
  function View(p: Props, contentStyle: Option<string>, btnStyle: Option<string>): (d: Option<Dialog>)
    ensures d.None? <==> !p.isOpen
    ensures d.Some? ==> d.value.contentStyle == contentStyle && d.value.btnStyle == btnStyle
  {
    if !p.isOpen then None
    else Some(Dialog("true", "modal-title", -1, contentStyle, btnStyle))
  }

  /** A `handleKeyDown` closure added to the window: a fresh identity and the
      `onClose` of the render whose effect added it. */
  datatype Listener = Listener(id: nat, onClose: Callback)

  datatype Instance = Instance(
    mounted: bool,
    props: Props,              // props of the last committed render
    ranDeps: Option<Props>,    // dependencies of the last effect that ran
    cleanup: Option<Listener>, // the listener the pending cleanup removes
    listeners: seq<Listener>,  // keydown listeners on the window
    nextId: nat,
    focused: bool,             // the dialog has keyboard focus
    closeCalls: seq<Callback>) // every call of an `onClose`, in order

  /** Before the first render. */
  function Initial(): Instance {
    Instance(false, Props(false, NoOp), None, None, [], 0, false, [])
  }

  datatype Event =
    | Render(props: Props)  // the caller renders the modal with these props
    | Effect                // React runs pending effects after a commit
    | Unmount               // the modal is removed from the tree
    | KeyDown(key: string)  // a keydown event reaches the window
    | CloseClick            // the user clicks the Close button

  /** The effect must run: its dependencies changed since it last ran, or it
      has not run since mounting. */
  predicate EffectPending(s: Instance) {
    s.mounted && s.ranDeps != Some(s.props)
  }

  /** Every effect has run for the current props. */
  predicate Settled(s: Instance) {
    s.mounted && s.ranDeps == Some(s.props)
  }

  /** `removeEventListener`: drops that closure from the window's listeners. */
  function RemoveListener(ls: seq<Listener>, l: Listener): (r: seq<Listener>)
    ensures l !in r
    ensures forall x :: x in r <==> x in ls && x != l
    decreases |ls|
  {
    if |ls| == 0 then []
    else if ls[0] == l then RemoveListener(ls[1..], l)
    else [ls[0]] + RemoveListener(ls[1..], l)
  }

  /** Runs the cleanup returned by the last effect, if any. */
  function RunCleanup(s: Instance): (r: Instance)
    ensures r.cleanup.None?
    ensures s.cleanup.Some? ==> s.cleanup.value !in r.listeners
    ensures forall x :: x in r.listeners <==> x in s.listeners && Some(x) != s.cleanup
    ensures r == s.(listeners := r.listeners, cleanup := None)
  {
    match s.cleanup
    case None => s
    case Some(l) => s.(listeners := RemoveListener(s.listeners, l), cleanup := None)
  }

  /** The calls one keydown event makes: every registered listener calls its
      `onClose` on Escape; any other key calls nothing. */
  function KeyCalls(ls: seq<Listener>, key: string): (calls: seq<Callback>)
    ensures key != "Escape" ==> calls == []
    ensures key == "Escape" ==> |calls| == |ls| && forall i :: 0 <= i < |ls| ==> calls[i] == ls[i].onClose
  {
    if key == "Escape" then seq(|ls|, i requires 0 <= i < |ls| => ls[i].onClose) else []
  }

  /** One lifecycle or user event. */
  function Step(s: Instance, e: Event): (r: Instance)
    // a render commits the caller's props and touches no listener; a first
    // render mounts with the effect still to run
    ensures e.Render? ==> r.mounted && r.props == e.props && r.listeners == s.listeners
                          && r.closeCalls == s.closeCalls
    ensures e.Render? && !s.mounted ==> EffectPending(r) && !r.focused
    // a later render keeps the effect bookkeeping; only closing drops focus
    ensures e.Render? && s.mounted ==> r == s.(props := e.props, focused := s.focused && e.props.isOpen)
    // the effect's dependencies are [isOpen, onClose]: after a settled state,
    // a render makes it pending exactly when one of the two changed
    ensures e.Render? && Settled(s) ==> (EffectPending(r) <==> e.props != s.props)
    // a pending effect first runs the previous cleanup, then, when open,
    // focuses the dialog and adds exactly one fresh listener for the current onClose
    ensures e.Effect? && EffectPending(s) ==>
      && Settled(r)
      && r.closeCalls == s.closeCalls
      && r.listeners == RunCleanup(s).listeners
                        + (if s.props.isOpen then [Listener(s.nextId, s.props.onClose)] else [])
      && r.cleanup == (if s.props.isOpen then Some(Listener(s.nextId, s.props.onClose)) else None)
      && (s.props.isOpen ==> r.focused)
    ensures e.Effect? && !EffectPending(s) ==> r == s
    // unmounting runs the cleanup
    ensures e.Unmount? && s.mounted ==>
      !r.mounted && r.listeners == RunCleanup(s).listeners && r.cleanup.None?
      && r.closeCalls == s.closeCalls
    ensures e.Unmount? && !s.mounted ==> r == s
    // a key press reaches every registered listener
    ensures e.KeyDown? ==> r == s.(closeCalls := s.closeCalls + KeyCalls(s.listeners, e.key))
    // the Close button exists only while mounted and open
    ensures e.CloseClick? ==>
      r == s.(closeCalls := s.closeCalls + (if s.mounted && s.props.isOpen then [s.props.onClose] else []))
    ensures !e.Render? ==> r.props == s.props
  {
    match e
    case Render(p) =>
      if !s.mounted then Instance(true, p, None, None, s.listeners, s.nextId, false, s.closeCalls)
      else s.(props := p, focused := s.focused && p.isOpen)
    case Effect =>
      if !EffectPending(s) then s
      else
        var c := RunCleanup(s);
        if s.props.isOpen then
          var l := Listener(c.nextId, s.props.onClose);
          c.(ranDeps := Some(s.props), focused := true, listeners := c.listeners + [l],
             cleanup := Some(l), nextId := c.nextId + 1)
        else c.(ranDeps := Some(s.props))
    case Unmount =>
      if !s.mounted then s
      else RunCleanup(s).(mounted := false, ranDeps := None, focused := false)
    case KeyDown(key) =>
      s.(closeCalls := s.closeCalls + KeyCalls(s.listeners, key))
    case CloseClick =>
      if s.mounted && s.props.isOpen then s.(closeCalls := s.closeCalls + [s.props.onClose]) else s
  }

  function Run(s: Instance, events: seq<Event>): Instance
    decreases |events|
  {
    if |events| == 0 then s else Run(Step(s, events[0]), events[1..])
  }

  /** The listener bookkeeping invariant: at most one listener, it is the one
      the pending cleanup removes, and it exists exactly when the last effect
      ran with the modal open, carrying that effect's `onClose`. */
  predicate Valid(s: Instance) {
    && |s.listeners| <= 1
    && (s.cleanup.Some? <==> |s.listeners| == 1)
    && (s.cleanup.Some? ==> s.listeners == [s.cleanup.value])
    && (s.ranDeps.None? ==> s.cleanup.None?)
    && (s.ranDeps.Some? ==> (s.cleanup.Some? <==> s.ranDeps.value.isOpen))
    && (s.ranDeps.Some? && s.cleanup.Some? ==> s.cleanup.value.onClose == s.ranDeps.value.onClose)
    && (!s.mounted ==> s.ranDeps.None?)
    && (s.focused ==> s.mounted && s.props.isOpen)
  }

  lemma InitialValid()
    ensures Valid(Initial())
  {
  }

  lemma StepValid(s: Instance, e: Event)
    requires Valid(s)
    ensures Valid(Step(s, e))
  {
    match e
    case Effect =>
      if EffectPending(s) && s.cleanup.Some? {
        assert RemoveListener(s.listeners, s.cleanup.value) == [];
      }
    case Unmount =>
      if s.mounted && s.cleanup.Some? {
        assert RemoveListener(s.listeners, s.cleanup.value) == [];
      }
    case _ =>
  }

  lemma {:induction false} RunValid(s: Instance, events: seq<Event>)
    requires Valid(s)
    ensures Valid(Run(s, events))
    decreases |events|
  {
    if |events| > 0 {
      StepValid(s, events[0]);
      RunValid(Step(s, events[0]), events[1..]);
    }
  }

  /** Once effects have settled, exactly one listener is registered iff the
      modal is open, and it calls the current `onClose`; an unmounted modal
      has none. */
  lemma SettledListeners(s: Instance)
    requires Valid(s)
    ensures Settled(s) ==> (|s.listeners| == 1 <==> s.props.isOpen)
    ensures Settled(s) && s.props.isOpen ==> s.listeners[0].onClose == s.props.onClose
    ensures !s.mounted ==> s.listeners == []
  {
  }

  /** From any reachable state, the listener count never exceeds one and
      matches the open flag once effects settle. */
  lemma ReachableListeners(events: seq<Event>)
    ensures var s := Run(Initial(), events);
      |s.listeners| <= 1 &&
      (Settled(s) ==> (|s.listeners| == 1 <==> s.props.isOpen)) &&
      (!s.mounted ==> s.listeners == [])
  {
    InitialValid();
    RunValid(Initial(), events);
    SettledListeners(Run(Initial(), events));
  }

  /** The effect run with the modal open focuses the dialog and leaves exactly
      one listener, for the current `onClose`. */
  lemma EffectWhenOpen(s: Instance)
    requires Valid(s) && EffectPending(s) && s.props.isOpen
    ensures var t := Step(s, Effect);
      t.focused && Settled(t) && |t.listeners| == 1 && t.listeners[0].onClose == s.props.onClose
  {
    if s.cleanup.Some? {
      assert RemoveListener(s.listeners, s.cleanup.value) == [];
    }
  }

  /** The effect run with the modal closed removes the listener, if any. */
  lemma EffectWhenClosed(s: Instance)
    requires Valid(s) && EffectPending(s) && !s.props.isOpen
    ensures var t := Step(s, Effect);
      Settled(t) && t.listeners == []
  {
    if s.cleanup.Some? {
      assert RemoveListener(s.listeners, s.cleanup.value) == [];
    }
  }

  /** Re-rendering an open, settled modal with a new `onClose` makes the
      effect run again: the old listener is removed and exactly one fresh
      listener for the new `onClose` takes its place. */
  lemma ChangedOnCloseReRegisters(s: Instance, g: Callback)
    requires Valid(s) && Settled(s) && s.props.isOpen && g != s.props.onClose
    ensures var t := Run(s, [Render(Props(true, g)), Effect]);
      t.listeners == [Listener(s.nextId, g)] && t.cleanup == Some(Listener(s.nextId, g))
      && Settled(t) && t.focused && t.closeCalls == s.closeCalls
  {
    RunTwo(s, Render(Props(true, g)), Effect);
    var r := Step(s, Render(Props(true, g)));
    assert EffectPending(r);
    assert RemoveListener(s.listeners, s.cleanup.value) == [];
  }

  /** Re-rendering a settled modal with the same `isOpen` and `onClose` does
      not re-run the effect: the state, listener included, is unchanged. */
  lemma SameDepsKeepState(s: Instance)
    requires Valid(s) && Settled(s)
    ensures Run(s, [Render(s.props), Effect]) == s
  {
    RunTwo(s, Render(s.props), Effect);
  }

  /** Escape on a settled, open modal calls `onClose` exactly once. */
  lemma EscapeWhenOpen(s: Instance)
    requires Valid(s) && Settled(s) && s.props.isOpen
    ensures Step(s, KeyDown("Escape")).closeCalls == s.closeCalls + [s.props.onClose]
  {
  }

  /** Escape on a settled, closed modal (or an unmounted one) calls nothing. */
  lemma EscapeWhenClosed(s: Instance)
    requires Valid(s) && (!s.mounted || (Settled(s) && !s.props.isOpen))
    ensures Step(s, KeyDown("Escape")) == s
  {
  }

  /** Any key other than Escape calls nothing and changes nothing. */
  lemma OtherKeysIgnored(s: Instance, key: string)
    requires key != "Escape"
    ensures Step(s, KeyDown(key)) == s
  {
  }

  /** The close button of an open modal calls the current `onClose` once. */
  lemma CloseButtonCallsOnClose(s: Instance)
    requires s.mounted && s.props.isOpen
    ensures Step(s, CloseClick).closeCalls == s.closeCalls + [s.props.onClose]
  {
  }

  /** Only the caller changes the props: no other event alters `isOpen` or
      `onClose`. */
  lemma OnlyRenderChangesProps(s: Instance, e: Event)
    requires !e.Render?
    ensures Step(s, e).props == s.props
  {
  }

  /** Events other than key presses and clicks never call `onClose`. */
  lemma LifecycleNeverCalls(s: Instance, e: Event)
    requires e.Render? || e.Effect? || e.Unmount?
    ensures Step(s, e).closeCalls == s.closeCalls
  {
  }

  lemma RunTwo(s: Instance, a: Event, b: Event)
    ensures Run(s, [a, b]) == Step(Step(s, a), b)
  {
    assert [a, b][1..] == [b];
    assert Run(s, [a, b]) == Run(Step(s, a), [b]);
    assert [b][1..] == [];
    assert Run(Step(s, a), [b]) == Run(Step(Step(s, a), b), []);
  }

  /** An open/close cycle registers one listener and then removes it. */
  lemma OpenCloseCycle(f: Callback)
    ensures var shown := Run(Initial(), [Render(Props(true, f)), Effect]);
      |shown.listeners| == 1 && shown.focused &&
      Run(shown, [Render(Props(false, f)), Effect]).listeners == []
  {
    var s1 := Step(Initial(), Render(Props(true, f)));
    var s2 := Step(s1, Effect);
    RunTwo(Initial(), Render(Props(true, f)), Effect);
    assert s2.listeners == [Listener(0, f)];
    var s3 := Step(s2, Render(Props(false, f)));
    var s4 := Step(s3, Effect);
    RunTwo(s2, Render(Props(false, f)), Effect);
    assert RemoveListener([Listener(0, f)], Listener(0, f)) == [];
  }
}

=== FILE: records.dfy ===
/** A table record: a JavaScript object seen as an ordered list of
    (field name, value) pairs, the order standing for the order in which
    `Object.keys` enumerates them. */
module Records {
  import opened JsValues

  datatype Record = Record(fields: seq<(string, Value)>)

  /** `Object.keys(r)`: the field names in enumeration order. */
  function Keys(r: Record): (ks: seq<string>)
    ensures |ks| == |r.fields|
    ensures forall i :: 0 <= i < |ks| ==> ks[i] == r.fields[i].0
  {
    seq(|r.fields|, i requires 0 <= i < |r.fields| => r.fields[i].0)
  }

  /** An object never has the same key twice. */
  predicate DistinctKeys(r: Record) {
    forall i, j :: 0 <= i < j < |r.fields| ==> r.fields[i].0 != r.fields[j].0
  }

  /** Property access `fields[k]` on an association list: the value of the
      first field named k, or Undefined when there is none. */
  function Lookup(fields: seq<(string, Value)>, k: string): (v: Value)
    ensures (forall i :: 0 <= i < |fields| ==> fields[i].0 != k) ==> v == Undefined
    ensures v != Undefined ==> exists i :: 0 <= i < |fields| && fields[i] == (k, v)
    decreases |fields|
  {
    if |fields| == 0 then Undefined
    else if fields[0].0 == k then fields[0].1
    else
      var v := Lookup(fields[1..], k);
      assert v != Undefined ==> exists i :: 0 <= i < |fields[1..]| && fields[1..][i] == (k, v);
      v
  }

  /** `row[col]`: Undefined when the record has no field named col. */
  function Get(r: Record, col: string): (v: Value)
    ensures col !in Keys(r) ==> v == Undefined
  {
    Lookup(r.fields, col)
  }

  /** In an object with distinct keys, looking up the i-th key yields the i-th value. */
  lemma {:induction false} LookupAt(fields: seq<(string, Value)>, i: nat)
    requires i < |fields|
    requires forall a, b :: 0 <= a < b < |fields| ==> fields[a].0 != fields[b].0
    ensures Lookup(fields, fields[i].0) == fields[i].1
    decreases i
  {
    if i > 0 {
      assert fields[0].0 != fields[i].0;
      assert fields[1..][i - 1] == fields[i];
      LookupAt(fields[1..], i - 1);
    }
  }

  lemma GetAt(r: Record, i: nat)
    requires DistinctKeys(r)
    requires i < |r.fields|
    ensures Get(r, Keys(r)[i]) == r.fields[i].1
  {
    LookupAt(r.fields, i);
  }
}

=== FILE: star_rating.dfy ===
/** The `StarRating` widget: five buttons, levels 1 to 5. The caller owns the
    committed `rating` and a `setRating` callback; the widget owns only a
    `hover` level (initially 0). A level is shown "on" when it is at most
    `hover || rating`, that is hover when hover is non-zero and rating otherwise. */
module StarRating {

  const LevelCount := 5

  /** The instance state: the internal hover level and the rating prop of
      the most recent render. */
  datatype Widget = Widget(hover: int, rating: int)

  /** Mouse enter/leave and click on a level's button, and a re-render by the
      caller with a (possibly new) rating prop. */
  datatype Event = Enter(level: int) | Leave | Click(level: int) | Rerender(rating: int)

  /** The result of one event: the next state and the values passed to
      `setRating`, in call order. */
  datatype Outcome = Outcome(widget: Widget, setRatingCalls: seq<int>)

  /** The first render: hover starts at 0. */
  function Mount(rating: int): (w: Widget)
    ensures w.hover == 0 && w.rating == rating
  {
    Widget(0, rating)
  }

  /** The declared default props: rating 0. */
  const DefaultRating := 0

  /** `hover || rating`: 0 is falsy. */
  function Shown(w: Widget): int {
    if w.hover != 0 then w.hover else w.rating
  }

  /** The five buttons, left to right: true for "on". Button i is level i + 1. */
  function View(w: Widget): (v: seq<bool>)
    ensures |v| == LevelCount
    ensures forall i :: 0 <= i < |v| ==> (v[i] <==> i + 1 <= Shown(w))
  {
    seq(LevelCount, i requires 0 <= i < LevelCount => i + 1 <= Shown(w))
  }

  /** The display with the first m levels on and the rest off (m clamped to 0..5). */
  function Lit(m: int): (v: seq<bool>)
    ensures |v| == LevelCount
  {
    seq(LevelCount, i requires 0 <= i < LevelCount => i < m)
  }

  /** The "on" levels always form a prefix: the first Shown levels, clamped. */
  lemma ViewIsPrefix(w: Widget)
    ensures View(w) == Lit(Shown(w))
    ensures forall i, j :: 0 <= i <= j < LevelCount && View(w)[j] ==> View(w)[i]
  {
  }

  function Step(w: Widget, e: Event): (o: Outcome)
    ensures e.Click? ==> o == Outcome(w, [e.level])
    ensures !e.Click? ==> o.setRatingCalls == []
    ensures e.Enter? ==> o.widget == Widget(e.level, w.rating)
    ensures e.Leave? ==> o.widget == Widget(w.rating, w.rating)
    ensures e.Rerender? ==> o.widget == Widget(w.hover, e.rating)
  {
    match e
    case Enter(i) => Outcome(w.(hover := i), [])
    case Leave => Outcome(w.(hover := w.rating), [])
    case Click(i) => Outcome(w, [i])
    case Rerender(r) => Outcome(w.(rating := r), [])
  }

  /** Before any mouse event the display reflects the rating alone. */
  lemma InitialViewShowsRating(rating: int)
    ensures View(Mount(rating)) == Lit(rating)
  {
  }

  /** With the default rating and no hover every level is off. */
  lemma DefaultAllOff()
    ensures View(Mount(DefaultRating)) == [false, false, false, false, false]
  {
  }

  /** After entering level i (1..5), levels 1..i are on and the rest off,
      whatever the rating. */
  lemma EnterShowsLevel(w: Widget, i: int)
    requires 1 <= i <= LevelCount
    ensures View(Step(w, Enter(i)).widget) == Lit(i)
  {
  }

  /** Leaving restores the committed display: the same as with no hover at all. */
  lemma LeaveRestoresRating(w: Widget)
    ensures View(Step(w, Leave).widget) == View(Mount(w.rating))
  {
  }

  /** Runs a sequence of events, collecting every `setRating` call. */
  function Run(w: Widget, events: seq<Event>): Outcome
    decreases |events|
  {
    if |events| == 0 then Outcome(w, [])
    else
      var first := Step(w, events[0]);
      var rest := Run(first.widget, events[1..]);
      Outcome(rest.widget, first.setRatingCalls + rest.setRatingCalls)
  }

  /** The levels clicked, in order. */
  function Clicks(events: seq<Event>): seq<int>
    decreases |events|
  {
    if |events| == 0 then []
    else (if events[0].Click? then [events[0].level] else []) + Clicks(events[1..])
  }

  /** `setRating` is called once per click, with the clicked level, in order,
      and never otherwise. */
  lemma {:induction false} RunCallsMatchClicks(w: Widget, events: seq<Event>)
    ensures Run(w, events).setRatingCalls == Clicks(events)
    decreases |events|
  {
    if |events| > 0 {
      RunCallsMatchClicks(Step(w, events[0]).widget, events[1..]);
    }
  }

  /** Events a user and a well-behaved caller can produce: mouse events on
      the five rendered levels and ratings in 0..5. */
  predicate ValidEvent(e: Event) {
    match e
    case Enter(i) => 1 <= i <= LevelCount
    case Click(i) => 1 <= i <= LevelCount
    case Leave => true
    case Rerender(r) => 0 <= r <= LevelCount
  }

  predicate InRange(w: Widget) {
    0 <= w.hover <= LevelCount && 0 <= w.rating <= LevelCount
  }

  /** With valid events, hover and rating stay within 0..5 for ever. */
  lemma {:induction false} RunStaysInRange(w: Widget, events: seq<Event>)
    requires InRange(w)
    requires forall i :: 0 <= i < |events| ==> ValidEvent(events[i])
    ensures InRange(Run(w, events).widget)
    decreases |events|
  {
    if |events| > 0 {
      RunStaysInRange(Step(w, events[0]).widget, events[1..]);
    }
  }

  /** Clicks alone never change what is displayed: the widget waits for the
      caller to re-render with the new rating. */
  lemma {:induction false} ClicksKeepDisplay(w: Widget, events: seq<Event>)
    requires forall i :: 0 <= i < |events| ==> events[i].Click?
    ensures Run(w, events).widget == w
    decreases |events|
  {
    if |events| > 0 {
      ClicksKeepDisplay(w, events[1..]);
    }
  }
}

=== FILE: table.dfy ===
/** The `Table` widget: renders an array of records as a table whose columns
    are the keys of the first record, with one uniform class string for every
    header cell and one for every body cell. */
module Table {
  import opened Wrappers
  import opened JsValues
  import opened Records
  import opened TableView

  datatype Props = Props(
    data: Option<seq<Record>>,        // None stands for a null or undefined `data`
    tableClassName: Option<string>,
    thClassName: Option<string>,
    tdClassName: Option<string>)

  /** The negation of `!data || data.length === 0`. */
  predicate HasData(data: Option<seq<Record>>) {
    data.Some? && |data.value| > 0
  }

  /** The records a `data` prop holds; none when it is absent. */
  function Rows(data: Option<seq<Record>>): seq<Record> {
    data.GetOr([])
  }

  /** Column names: the keys of the first record only. */
  function Columns(rows: seq<Record>): seq<string>
    requires |rows| > 0
  {
    Keys(rows[0])
  }

  function Render(p: Props): (v: View)
    ensures v.Placeholder? <==> !HasData(p.data)
    ensures v.Placeholder? ==> v == Placeholder(NoDataText, Some("no-data"))
    ensures v.Grid? ==> v.className == "table " + OrEmpty(p.tableClassName)
    ensures v.Grid? ==> HeaderTexts(v.header) == Keys(p.data.value[0])
    ensures v.Grid? ==> forall i :: 0 <= i < |v.header| ==> v.header[i].className == OrEmpty(p.thClassName)
    ensures v.Grid? ==> |v.body| == |p.data.value|
    ensures v.Grid? ==> forall j :: 0 <= j < |v.body| ==> |v.body[j]| == |v.header|
    ensures v.Grid? ==> forall j, k :: 0 <= j < |v.body| && 0 <= k < |v.body[j]| ==>
      v.body[j][k] == BodyCell(OrEmpty(p.tdClassName), Get(p.data.value[j], v.header[k].text))
  {
    if !HasData(p.data) then Placeholder(NoDataText, Some("no-data"))
    else
      var rows := p.data.value;
      var columns := Columns(rows);
      Grid("table " + OrEmpty(p.tableClassName),
           seq(|columns|, i requires 0 <= i < |columns| => HeaderCell(OrEmpty(p.thClassName), columns[i])),
           seq(|rows|, j requires 0 <= j < |rows| =>
             seq(|columns|, k requires 0 <= k < |columns| =>
               BodyCell(OrEmpty(p.tdClassName), Get(rows[j], columns[k])))))
  }

  /** Every record has the first record's keys, in the same order, and those
      keys are distinct: the shape of data the widget is written for. */
  predicate Homogeneous(rows: seq<Record>) {
    |rows| > 0 ==>
      DistinctKeys(rows[0]) && forall j :: 0 <= j < |rows| ==> Keys(rows[j]) == Keys(rows[0])
  }

  /** Reads the records back from a rendered view: each body row paired with
      the header texts. The placeholder reads as no records. */
  function ReadBack(v: View): seq<Record> {
    match v
    case Placeholder(_, _) => []
    case Grid(_, header, body) =>
      seq(|body|, j requires 0 <= j < |body| =>
        Record(seq(|header|, k requires 0 <= k < |header| =>
          (header[k].text, if k < |body[j]| then body[j][k].content else Undefined))))
  }

  /** For homogeneous data nothing is lost: the table shows every record, in
      input order, with every field. */
  lemma RenderReadBack(p: Props)
    requires Homogeneous(Rows(p.data))
    ensures ReadBack(Render(p)) == Rows(p.data)
  {
    var v := Render(p);
    if v.Grid? {
      var rows := p.data.value;
      var back := ReadBack(v);
      assert |back| == |rows|;
      forall j | 0 <= j < |rows|
        ensures back[j] == rows[j]
      {
        var r := rows[j];
        assert Keys(r) == Keys(rows[0]);
        assert DistinctKeys(r) by {
          forall a, b | 0 <= a < b < |r.fields|
            ensures r.fields[a].0 != r.fields[b].0
          {
            assert Keys(r)[a] == Keys(rows[0])[a] && Keys(r)[b] == Keys(rows[0])[b];
          }
        }
        forall k | 0 <= k < |r.fields|
          ensures back[j].fields[k] == r.fields[k]
        {
          GetAt(r, k);
        }
      }
    }
  }

  /** The documented example: two records with keys id, name, age. */
  const John := Record([("id", Num(1)), ("name", Str("John")), ("age", Num(30))])
  const Alice := Record([("id", Num(2)), ("name", Str("Alice")), ("age", Num(25))])

  /** The cell values `data[j][columns[k]]` of every record, row by row. */
  function CellValues(rows: seq<Record>, columns: seq<string>): (c: seq<seq<Value>>)
    ensures |c| == |rows|
    ensures forall j :: 0 <= j < |c| ==> c[j] == RowValues(rows[j], columns)
  {
    seq(|rows|, j requires 0 <= j < |rows| => RowValues(rows[j], columns))
  }

  function RowValues(row: Record, columns: seq<string>): (c: seq<Value>)
    ensures |c| == |columns|
    ensures forall k :: 0 <= k < |c| ==> c[k] == Get(row, columns[k])
  {
    seq(|columns|, k requires 0 <= k < |columns| => Get(row, columns[k]))
  }

  /** Ignoring class strings, a table with data shows the first record's keys
      and the values `data[j][columns[k]]`. */
  lemma ContentsOfRender(p: Props)
    requires HasData(p.data)
    ensures Contents(Render(p)) == Some((Columns(p.data.value), CellValues(p.data.value, Columns(p.data.value))))
  {
    var v := Render(p);
    var c := Contents(v).value.1;
    var e := CellValues(p.data.value, Columns(p.data.value));
    assert |c| == |e|;
    forall j | 0 <= j < |c|
      ensures c[j] == e[j]
    {
      forall k | 0 <= k < |c[j]|
        ensures c[j][k] == e[j][k]
      {
        assert v.header[k].text == Columns(p.data.value)[k];
      }
    }
    assert c == e;
    assert Contents(v) == Some((HeaderTexts(v.header), c));
  }

  lemma RowValuesOfThree(r: Record, cols: seq<string>)
    requires |cols| == 3
    ensures RowValues(r, cols) == [Get(r, cols[0]), Get(r, cols[1]), Get(r, cols[2])]
  {
  }

  lemma CellValuesOfTwoRows(r0: Record, r1: Record, cols: seq<string>)
    requires |cols| == 3
    ensures CellValues([r0, r1], cols)
         == [[Get(r0, cols[0]), Get(r0, cols[1]), Get(r0, cols[2])],
             [Get(r1, cols[0]), Get(r1, cols[1]), Get(r1, cols[2])]]
  {
    RowValuesOfThree(r0, cols);
    RowValuesOfThree(r1, cols);
    assert CellValues([r0, r1], cols) == [RowValues(r0, cols), RowValues(r1, cols)];
  }

  lemma ExampleFields()
    ensures Keys(John) == ["id", "name", "age"]
    ensures Get(John, "id") == Num(1) && Get(John, "name") == Str("John") && Get(John, "age") == Num(30)
    ensures Get(Alice, "id") == Num(2) && Get(Alice, "name") == Str("Alice") && Get(Alice, "age") == Num(25)
  {
    assert "id" != "name" && "id" != "age" && "name" != "age";
  }

  lemma ExampleTwoRecords()
    ensures Contents(Render(Props(Some([John, Alice]), None, None, None)))
         == Some((["id", "name", "age"], [[Num(1), Str("John"), Num(30)], [Num(2), Str("Alice"), Num(25)]]))
  {
    ContentsOfRender(Props(Some([John, Alice]), None, None, None));
    ExampleFields();
    CellValuesOfTwoRows(John, Alice, Keys(John));
  }

  lemma TwoDigitText(n: nat)
    requires 10 <= n < 100
    ensures ChildText(Num(n)) == [Digit(n / 10), Digit(n % 10)]
  {
    assert NatText(n) == NatText(n / 10) + [Digit(n % 10)];
  }

  lemma DecimalTextOfExample()
    ensures ChildText(Num(1)) == "1" && ChildText(Num(30)) == "30"
    ensures ChildText(Num(2)) == "2" && ChildText(Num(25)) == "25"
  {
    TwoDigitText(30);
    TwoDigitText(25);
    assert Digit(1) == '1' && Digit(2) == '2' && Digit(3) == '3' && Digit(0) == '0' && Digit(5) == '5';
  }

  /** The texts a two-row, three-column view shows, in terms of its cell values. */
  lemma CellTextsOfTwoByThree(v: View)
    requires v.Grid? && |v.body| == 2 && |v.body[0]| == 3 && |v.body[1]| == 3
    ensures var c := Contents(v).value.1;
      CellTexts(v.body) == [[ChildText(c[0][0]), ChildText(c[0][1]), ChildText(c[0][2])],
                            [ChildText(c[1][0]), ChildText(c[1][1]), ChildText(c[1][2])]]
  {
    var t := CellTexts(v.body);
    var c := Contents(v).value.1;
    assert t[0] == [ChildText(c[0][0]), ChildText(c[0][1]), ChildText(c[0][2])];
    assert t[1] == [ChildText(c[1][0]), ChildText(c[1][1]), ChildText(c[1][2])];
  }

  /** The documented example as displayed text: the numbers print in decimal. */
  lemma ExampleCellTexts()
    ensures var v := Render(Props(Some([John, Alice]), None, None, None));
      v.Grid? && CellTexts(v.body) == [["1", "John", "30"], ["2", "Alice", "25"]]
  {
    var v := Render(Props(Some([John, Alice]), None, None, None));
    ExampleTwoRecords();
    CellTextsOfTwoByThree(v);
    DecimalTextOfExample();
  }
}

=== FILE: table_view.dfy ===
/** The rendered output shared by the two table widgets, abstracted from JSX:
    either the "No data available" paragraph or a table with its class string,
    one header row and one body row per record. React `key` props are left out. */
module TableView {
  import opened Wrappers
  import opened JsValues

  const NoDataText := "No data available"

  datatype HeaderCell = HeaderCell(className: string, text: string)
  datatype BodyCell = BodyCell(className: string, content: Value)

  datatype View =
    | Placeholder(text: string, testId: Option<string>)
    | Grid(className: string, header: seq<HeaderCell>, body: seq<seq<BodyCell>>)

  /** The header texts of a rendered table, left to right. */
  function HeaderTexts(header: seq<HeaderCell>): (ts: seq<string>)
    ensures |ts| == |header|
    ensures forall i :: 0 <= i < |ts| ==> ts[i] == header[i].text
  {
    seq(|header|, i requires 0 <= i < |header| => header[i].text)
  }

  /** The text each body cell shows, row by row: the cell value rendered as a
      React child. */
  function CellTexts(body: seq<seq<BodyCell>>): (ts: seq<seq<string>>)
    ensures |ts| == |body|
    ensures forall j :: 0 <= j < |ts| ==> |ts[j]| == |body[j]|
    ensures forall j, k :: 0 <= j < |ts| && 0 <= k < |ts[j]| ==> ts[j][k] == ChildText(body[j][k].content)
  {
    seq(|body|, j requires 0 <= j < |body| =>
      seq(|body[j]|, k requires 0 <= k < |body[j]| => ChildText(body[j][k].content)))
  }

  /** What a view shows once every class string is ignored: None for the
      placeholder, otherwise the header texts and the cell contents. */
  function Contents(v: View): Option<(seq<string>, seq<seq<Value>>)> {
    match v
    case Placeholder(_, _) => None
    case Grid(_, header, body) =>
      Some((HeaderTexts(header),
            seq(|body|, j requires 0 <= j < |body| =>
              seq(|body[j]|, k requires 0 <= k < |body[j]| => body[j][k].content))))
  }
}

=== FILE: wrappers.dfy ===
/** The optional-value datatype used for props that a caller may leave out
    (JavaScript `undefined`) and for partial results such as parsing. */
module Wrappers {

  datatype Option<+T> = None | Some(value: T) {

    /** The value if present, otherwise the given default (JavaScript's
        default-parameter and `x || default` idioms on a present value). */
    function GetOr(default: T): T {
      match this
      case Some(v) => v
      case None => default
    }
  }
}
